=== FILE: README.md ===
# Attendance dashboard: handlers and page logic in Dafny

This project models the decision logic of a school attendance dashboard that sits on a
managed database. It covers two groups.

- **The three serverless handlers.** Each is a pure transition from a request, the
  database and an oracle to a response and the database afterwards.
  - `finger-login` validates a scanned fingerprint id and resolves it to at most one user.
    It always logs the attempt and answers 200, 404 or an error.
  - `log-fingerprint` writes one bare attendance row holding only the fingerprint id.
  - `mark-attendance` resolves a student by admission number and writes one row with the
    lower-cased status. It then makes at most one best-effort WhatsApp notification.
- **The state updates of the React pages.** These are the student filter, the edit
  forms, the role badges, the two live log views (one bounded at 50 rows, one
  unbounded) and the dashboard counts.

The database is a record of four sequences: `users`, `students`, `attendance` and
`finger_login_logs` (module `Tables`). Whatever the code gets from outside is a
parameter:
- whether a lookup or an insert fails, and the insert's error message;
- what the messaging service does;
- the current timestamp, as an opaque string.

`.single()` and `.maybeSingle()` both return a row only when the query did not fail and
matched exactly one row. Several matches are an error for both, and the handlers treat
every error as "not found". So duplicate fingerprint ids make a login answer 404 while
still logging the attempt.

Request bodies are maps from keys to JavaScript values (module `Js`). `parseInt` is
modelled with its leading white space, sign and `0x` prefix. Truthiness and `String(v)`
are modelled as well.

Modules, one per file:
- `Common`: the generic helpers. These are the filter, the subsequence relation and the
  bounded prepend.
- `Js`: the JavaScript value semantics listed above.
- `Tables`: the table rows and the one-row query semantics.
- `Http`: requests, responses, and the `fingerprint_id` check that two handlers share.
- One module per handler and one per page.
- `Consistency`: how the two attendance writers feed the dashboard counts.

Behaviour of the code worth knowing:
- `mark-attendance` has no 405 branch. Every method except OPTIONS goes through
  validation.
- `mark-attendance` rejects falsy values such as `""` and `0`, not only missing fields.
- The row that `log-fingerprint` writes carries no timestamp from the handler. Any
  timestamp comes from database defaults, which are not modelled.
- Several users with the same fingerprint id make the lookup error, and the attempt is
  answered as unknown.

## Model

| member | source | states |
|---|---|---|
| Js.ParseIntRoundTrip | supabase/functions/finger-login/index.ts:35 | `parseInt(String(n))` gives back `n` for every integer whose magnitude is below 10^21 (where `String(n)` writes plain digits), negative ones included |
| Js.ParseIntWithoutDigits | supabase/functions/finger-login/index.ts:35-36 | a string with no decimal digit anywhere parses to `NaN` |
| Js.IncludesIffOccurs | src/pages/Students.tsx:84-85 | `hay.includes(needle)` holds exactly when `needle` occurs as a contiguous slice of `hay` |
| Tables.SingleRow | supabase/functions/finger-login/index.ts:51-59 | the one-row read returns a row exactly when the query did not fail and matched exactly one row, and then it returns that row |
| Tables.UsersWithFingerprint | supabase/functions/finger-login/index.ts:51-54 | a user is a candidate exactly when it is in `users` and its `fingerprint_id` equals the parsed id |
| Tables.StudentsWithAdminNo | supabase/functions/mark-attendance/index.ts:95-99 | a student is a candidate exactly when it is in `students` and its `admin_no` equals the key |
| Http.CheckFingerprintId | supabase/functions/finger-login/index.ts:26-41 | a missing or falsy id is "required" (400), except that `0` passes; an id whose `parseInt` is `NaN` is "must be a number" (400); otherwise the id is accepted as its `parseInt` |
| Http.NumberIdAccepted | supabase/functions/finger-login/index.ts:26-41 | a JSON integer sent as the id passes both checks and is accepted as itself |
| FingerLoginHandler.OrNull | supabase/functions/finger-login/index.ts:69 | `device_id \|\| null` keeps the value exactly when it is truthy |
| FingerLoginHandler.ResolvedUserId | supabase/functions/finger-login/index.ts:68 | `user?.id \|\| null` is the user's id when a user was found with a non-empty id, and null otherwise |
| FingerLoginHandler.PublicFields | supabase/functions/finger-login/index.ts:87-93 | the 200 body reveals exactly id, name, role, class and section |
| FingerLoginHandler.Attempt | supabase/functions/finger-login/index.ts:50-109 | once the id is valid: an insert failure gives 500 with no write, even when a user matched. Otherwise exactly one login-log row is appended holding the id, the device id exactly when it is truthy, the time, and the user id exactly when one user with a non-empty id matched. The reply is 200 with that user's public fields, the id and the time when exactly one user matched, and 404 with the id and the time otherwise. A failed lookup is logged without a user and answered 404 |
| FingerLoginHandler.Handle | supabase/functions/finger-login/index.ts:9-111 | OPTIONS gets the empty preflight, and any other non-POST gets 405; neither writes. An unreadable body gets 500, and a bad id gets 400 with no write. A valid id appends exactly one login-log row, unless the insert fails, which gives 500 with no write even when a user matched. The row holds the parsed id, the device id or null, the time, and the user id exactly when one user matched. A 200 or 404 reply happens exactly when that row was written. 200 carries the matched user's public fields, the id and the logged time; 404 carries the id and the logged time. A failed lookup is not fatal: the attempt is logged without a user and answered 404 |
| LogFingerprintHandler.RawScanRow | supabase/functions/log-fingerprint/index.ts:49-53 | the raw-scan row holds only the fingerprint id: no student, no status, no timestamp |
| LogFingerprintHandler.Handle | supabase/functions/log-fingerprint/index.ts:9-76 | OPTIONS gets the preflight, and any other non-POST gets 405. An unreadable body gets 500, and a bad id gets 400. An insert error gets 500 with no success body. None of these write. Otherwise exactly one attendance row, holding only the parsed id, is appended, and the reply is 200 echoing that row. A success body appears exactly when a row was written |
| LogFingerprintHandler.ScanIgnoresIdentityTables | supabase/functions/log-fingerprint/index.ts:48-53 | the reply and the attendance table afterwards depend on neither the users nor the students table |
| MarkAttendanceHandler.SendWhatsAppMessage | supabase/functions/mark-attendance/index.ts:22-49 | the sender never throws: `true` exactly for an ok answer, `false` for a non-ok answer or a thrown fetch |
| MarkAttendanceHandler.LowerCasedStatuses | supabase/functions/mark-attendance/index.ts:121 | `toLowerCase` turns the two accepted statuses into `present` and `absent` |
| MarkAttendanceHandler.LoweredStatus | supabase/functions/mark-attendance/index.ts:121 | the status stored for PRESENT is `present` and for ABSENT is `absent` |
| MarkAttendanceHandler.Record | supabase/functions/mark-attendance/index.ts:117-169 | an insert error gives 500 with its message as `details`, with no write and no notification. Otherwise exactly one row (student id, lower-cased status, time) is appended. One notification "Your child {name} is {STATUS} today." goes to the parent phone exactly when a phone is on file. The reply is 200 whatever the delivery did, and `whatsapp_sent` is true only when a notification was made and answered ok |
| MarkAttendanceHandler.HandleFields | supabase/functions/mark-attendance/index.ts:67-112 | an empty or missing `admin_no` or `status` gives 400; a status other than exactly `PRESENT` or `ABSENT` gives 400; a failed lookup, or anything but exactly one student with that admission number, gives 404 naming it; otherwise the matched student is recorded |
| MarkAttendanceHandler.Handle | supabase/functions/mark-attendance/index.ts:51-182 | OPTIONS gets the preflight. Every other method is processed, since there is no 405. An unreadable body gets 500 with details. 400, 404 and 500 write nothing and notify nobody. A 200 reply happens exactly when one row was appended, which is exactly when validation passed, one student matched and the insert succeeded. That row has that student's id and `present`/`absent`. At most one notification is made, and only after the row is written. `whatsapp_sent` reflects it |
| StudentsPage.FilterStudents | src/pages/Students.tsx:78-98 | the result is an order-preserving subsequence of the students. With a query, each kept student matches it case-insensitively in name or roll number. A class or section other than 'all' forces equality. Every student passing all active tests is kept. An empty query with both filters 'all' returns the list unchanged |
| StudentsPage.FilterStudentsIsMatching | src/pages/Students.tsx:78-98 | the three staged filters equal one left-to-right pass keeping exactly the students that pass every active test |
| StudentsPage.FilterStudentsIdempotent | src/pages/Students.tsx:78-98 | filtering a filtered list again with the same controls changes nothing |
| StudentsPage.EditStudent | src/pages/Students.tsx:127-138 | opening a student remembers it, opens the dialog and copies name, roll number, class, section and parent phone into the form; the finger id field is `finger_id \|\| ''`, so it is empty exactly when the student's is null or empty |
| StudentsPage.SaveForm | src/pages/Students.tsx:104-108 | saving keeps the id and admission number and writes the form's name, roll number, class, section and parent phone over the student; `finger_id` is stored as the form's string, never null |
| StudentsPage.EditThenSave | src/pages/Students.tsx:100-138 | opening a student and saving the untouched form writes it back unchanged exactly when its `finger_id` is not null; a null one comes back as `''` |
| StudentsPage.ResetForm | src/pages/Students.tsx:154-164 | all six form fields become `''`, no student is being edited, the dialog flag is untouched |
| StudentsPage.ResetRestoresInitial | src/pages/Students.tsx:45-52 | with the dialog closed, a reset returns the page to its initial form state, whatever was being edited |
| AdminUsersPage.RoleBadgeVariant | src/pages/AdminUsers.tsx:175-186 | admin, teacher and student map to destructive, default and secondary, and every other role to outline |
| AdminUsersPage.OrNull | src/pages/AdminUsers.tsx:83-87 | `'' \|\| null` is null, and a non-empty string is kept verbatim |
| AdminUsersPage.OrEmpty | src/pages/AdminUsers.tsx:141-145 | `x \|\| ''` is `''` exactly for null or `''`, and the value otherwise |
| AdminUsersPage.Normalise | src/pages/AdminUsers.tsx:81-89 | name and role are copied; each empty optional string becomes null and any other is kept; an empty fingerprint id becomes null and any other is `parseInt` of the string |
| AdminUsersPage.EditUser | src/pages/AdminUsers.tsx:137-149 | opening a user remembers it and opens the dialog; name and role are copied, and email, admission number, class and section become `x \|\| ''`; the fingerprint field is empty exactly when the user's id is null, and otherwise it is the id's decimal string |
| AdminUsersPage.EditedFingerprintParsesBack | src/pages/AdminUsers.tsx:137-149 | the fingerprint field built for a user with an id parses back to that id |
| AdminUsersPage.EditThenNormalise | src/pages/AdminUsers.tsx:81-147 | normalising the form built by `handleEdit` gives back the user's editable fields exactly when no optional column holds `''` |
| AdminUsersPage.ResetForm | src/pages/AdminUsers.tsx:65-76 | role becomes 'student', every other field `''`, nobody is being edited, the dialog flag is untouched |
| AdminUsersPage.ResetFormSubmitsBareStudent | src/pages/AdminUsers.tsx:65-89 | submitting a reset form sends a student with empty name and every optional field null |
| FingerLoginPage.InitialFetch | src/pages/FingerLogin.tsx:58-66 | an error or empty data leaves the state as it was; non-empty data replaces the list and its first row becomes the last login |
| FingerLoginPage.OnInsert | src/pages/FingerLogin.tsx:99-102 | if the re-read returns nothing, nothing changes. Otherwise the new row is first and is the last login, and the list has at most 50 rows. The list's length is min(old + 1, 50), and the rest is the front of the old list in order |
| FingerLoginPage.RoleBadge | src/pages/FingerLogin.tsx:24-35 | a missing role is outline, and a present one gets the same badge as on the user-management page |
| FingerLoginPage.RunKeepsBoundAndCoherence | src/pages/FingerLogin.tsx:43-102 | from any list of at most 50 rows whose card shows its head, the list stays at most 50 long through any mix of fetches (limited to 50) and inserts. The card keeps showing the head |
| FingerLoginPage.MonitorStaysBounded | src/pages/FingerLogin.tsx:38-102 | starting from the page's initial state (no rows, no last login), any mix of fetches limited to 50 rows and inserts keeps at most 50 rows, with the card showing the head |
| FingerprintLogsPage.FetchLogs | src/pages/FingerprintLogs.tsx:43-56 | an error or absent data leaves the state as it was. Data replaces the list. The first row becomes the last scan when there is one, and the last scan is kept when the data is empty |
| FingerprintLogsPage.OnScan | src/pages/FingerprintLogs.tsx:30-34 | each insert grows the list by exactly one, with the new row in front of the whole old list, and makes it the last scan |
| FingerprintLogsPage.ScanAllPrependsEverything | src/pages/FingerprintLogs.tsx:30-33 | after any number of inserts the list is the new rows, newest first, in front of the old list; nothing is dropped |
| FingerprintLogsPage.StaleLastScan | src/pages/FingerprintLogs.tsx:50-55 | an empty fetch after a scan empties the list but keeps the last-scan card |
| DashboardPage.ComputeStats | src/pages/Dashboard.tsx:51-92 | a null total count gives 0 students. Missing data gives three zero counts. Otherwise each count is the number of today's rows with exactly that status, and the three add up to the rows minus those with any other status or none |
| DashboardPage.CountStatusIsTally | src/pages/Dashboard.tsx:67-69 | the filter-and-length count equals a direct count of rows with that exact status |
| DashboardPage.BucketsPartitionRows | src/pages/Dashboard.tsx:67-69 | present, late, absent and uncounted rows add up to all rows, so every row is in at most one bucket |
| DashboardPage.DayRows | src/pages/Dashboard.tsx:59-65 | a row is among the day's rows exactly when it is in the table with a timestamp inside the window; the day's rows keep table order, and each in-window row appears as many times as in the table, so two identical scans count twice. The query sets no order, so table order is the model's choice |
| DashboardPage.DayRowsAppend | src/pages/Dashboard.tsx:59-65 | appending a row adds it to the end of the day's rows when its timestamp is in the window, and leaves them unchanged otherwise |
| DashboardPage.StatsAfterAppend | src/pages/Dashboard.tsx:67-69 | one more row leaves the total alone and raises only the count of its own status, by one, when that status is one of the three |
| DashboardPage.StatusDot | src/pages/Dashboard.tsx:153-160 | 'present' is the success dot, 'late' the warning dot, and anything else, a missing status included, the destructive dot |
| Consistency.RawScanNeverCounted | supabase/functions/log-fingerprint/index.ts:49-53 | a raw scan changes none of the dashboard's numbers for any day window, because its row has no status |
| Consistency.MarkAppendsStatusRow | supabase/functions/mark-attendance/index.ts:117-125 | when the mark succeeds (the conditions under which Handle answers 200) the attendance table grows by exactly one row at its end, whose status is the lower-cased requested status and whose timestamp is the handler's current time |
| Consistency.MarkOutsideWindowUncounted | supabase/functions/mark-attendance/index.ts:117-125 | a successful mark whose time falls outside the day window leaves every dashboard number for that day unchanged |
| Consistency.MarkCountedOnce | supabase/functions/mark-attendance/index.ts:117-125 | when the mark's time falls in the day window, a successful mark adds one to 'present' for PRESENT and to 'absent' for ABSENT, and never changes 'late' |

## Left out

- Client construction, environment variables, `serve`/`Deno.serve`, realtime channels and
  console logging are foreign I/O. Their results are parameters: lookup and insert
  failures, the insert error message, the delivery outcome, and the rows a fetch returns.
- The outbound `fetch` to the messaging service is reduced to its outcome: thrown, or
  answered with an `ok` flag. The service URL and the request body are not modelled. The
  attempt is recorded as a number and a message.
- Timestamps are opaque strings. The dashboard's "today" window (`timestamp` between
  `{today}T00:00:00` and `{today}T23:59:59`) is a predicate on timestamp strings given as
  a parameter. The string comparison that realises it and the clock that picks `today`
  are not modelled. A row stamped in the last second of a day, after `T23:59:59`, falls
  in no day's window.
- Numbers in request bodies are integers below 10^21. Fractions, `-0`, `NaN` and
  exponent notation are not modelled, and neither are array values in a body.
- Js.ParseInt: skips only ASCII white space, not the Unicode space characters.
- Js.ParseInt: returns the exact integer. JavaScript's `parseInt` rounds to the nearest
  double beyond 2^53.
- Js.ToLower: folds only ASCII letters. This affects the student search and nothing else.
- Columns the database fills in itself are not modelled: the row id, `created_at`, and a
  default `timestamp`.
- A student's null `parent_phone` is modelled as `''`. Both are falsy, so the
  notification branch is the same.
- AdminUsersPage.Normalise: keeps a `NaN` fingerprint id distinct from null. The JSON
  encoding would send both as null.
- The list fetches (`fetchStudents`, `fetchUsers`), deletion (`handleDelete`), the create
  calls, the database round trips of the update calls, the toasts and the dashboard's
  recent-entries list are not modelled. Each only forwards rows to the database or to the
  screen. The Students update is modelled only by the row it writes (StudentsPage.SaveForm).
- MarkAttendanceHandler.Record: the 200 body's `timestamp` is the database's echo of the
  stored value. The model takes that echo to be the string that was sent, although the
  database may render it differently.
- Js.IntToString: writes plain digits for every integer. JavaScript's `String(n)` switches
  to exponent notation from 10^21 on, so Js.ParseIntRoundTrip and Http.NumberIdAccepted hold
  for JavaScript only below that bound.
- `src/pages/Attendance.tsx`, `src/components/Navigation.tsx` and
  `src/components/Layout.tsx` are markup and route highlighting.
- Concurrency between requests is not modelled. Each request is one atomic transition.

=== FILE: admin_users_page.dfy ===
/** The user-management page: the role badge, the form's normalisation into
    the row written on submit, and its inverse when a user is opened for
    editing. */
module AdminUsersPage {
  import opened Common
  import opened Js
  import opened Tables

  /** The badge styles a role can be shown with. */
  datatype BadgeVariant = Destructive | Default | Secondary | Outline

  /** `getRoleBadgeVariant`: a total map from any role string. */
  function RoleBadgeVariant(role: string): (v: BadgeVariant)
    ensures v == Destructive <==> role == "admin"
    ensures v == Default <==> role == "teacher"
    ensures v == Secondary <==> role == "student"
    ensures v == Outline <==> role != "admin" && role != "teacher" && role != "student"
  {
    match role
    case "admin" => Destructive
    case "teacher" => Default
    case "student" => Secondary
    case _ => Outline
  }

  /** The dialog's form; every field is a string. */
  datatype UserForm = UserForm(
    name: string,
    email: string,
    role: string,
    admnNo: string,
    className: string,
    section: string,
    fingerprintId: string)

  /** The object `handleSubmit` sends to `insert` / `update`. A `NaN`
      fingerprint id is kept distinct from `null` here. */
  datatype UserData = UserData(
    name: string,
    email: Option<string>,
    role: string,
    admnNo: Option<string>,
    className: Option<string>,
    section: Option<string>,
    fingerprintId: Option<Parsed>)

  /** `s || null` on a form string. */
  function OrNull(s: string): (r: Option<string>)
    ensures r.None? <==> s == ""
    ensures r.Some? ==> r.value == s
  {
    if s == "" then None else Some(s)
  }

  /** `o || ''` on an optional column. */
  function OrEmpty(o: Option<string>): (r: string)
    ensures r == "" <==> o.None? || o == Some("")
    ensures o.Some? ==> r == o.value
  {
    match o
    case Some(s) => s
    case None => ""
  }

  /** The `userData` built in `handleSubmit`. */
  function Normalise(form: UserForm): (d: UserData)
    ensures d.name == form.name && d.role == form.role
    ensures d.email.None? <==> form.email == ""
    ensures d.admnNo.None? <==> form.admnNo == ""
    ensures d.className.None? <==> form.className == ""
    ensures d.section.None? <==> form.section == ""
    ensures d.email.Some? ==> d.email.value == form.email
    ensures d.admnNo.Some? ==> d.admnNo.value == form.admnNo
    ensures d.className.Some? ==> d.className.value == form.className
    ensures d.section.Some? ==> d.section.value == form.section
    ensures d.fingerprintId.None? <==> form.fingerprintId == ""
    ensures d.fingerprintId.Some? ==> d.fingerprintId.value == ParseInt(form.fingerprintId)
  {
    UserData(
      form.name,
      OrNull(form.email),
      form.role,
      OrNull(form.admnNo),
      OrNull(form.className),
      OrNull(form.section),
      if form.fingerprintId != "" then Some(ParseInt(form.fingerprintId)) else None)
  }

  datatype UserEditor = UserEditor(form: UserForm, editing: Option<User>, dialogOpen: bool)

  const EmptyForm: UserForm := UserForm("", "", "student", "", "", "", "")

  const InitialEditor: UserEditor := UserEditor(EmptyForm, None, false)

  /** `handleEdit`: remember the user, fill the form (`x || ''` for the
      optional strings, `fingerprint_id?.toString() || ''`), open the dialog. */
  function EditUser(ed: UserEditor, u: User): (r: UserEditor)
    ensures r.editing == Some(u) && r.dialogOpen
    ensures r.form.name == u.name && r.form.role == u.role
    ensures r.form.email == OrEmpty(u.email) && r.form.admnNo == OrEmpty(u.admnNo)
    ensures r.form.className == OrEmpty(u.className) && r.form.section == OrEmpty(u.section)
    ensures r.form.fingerprintId == "" <==> u.fingerprintId.None?
    ensures u.fingerprintId.Some? ==> r.form.fingerprintId == IntToString(u.fingerprintId.value)
  {
    UserEditor(
      UserForm(u.name, OrEmpty(u.email), u.role, OrEmpty(u.admnNo), OrEmpty(u.className), OrEmpty(u.section),
        match u.fingerprintId
        case Some(n) => IntToString(n)
        case None => ""),
      Some(u),
      true)
  }

  /** The fingerprint field of an opened user parses back to the user's id. */
  lemma EditedFingerprintParsesBack(ed: UserEditor, u: User)
    requires u.fingerprintId.Some?
    ensures ParseInt(EditUser(ed, u).form.fingerprintId) == Int(u.fingerprintId.value)
  {
    ParseIntRoundTrip(u.fingerprintId.value);
  }

  /** The user's fields that the form can edit, as `userData` would carry
      them. */
  function EditableFields(u: User): UserData {
    UserData(u.name, u.email, u.role, u.admnNo, u.className, u.section,
      match u.fingerprintId
      case Some(n) => Some(Int(n))
      case None => None)
  }

  /** No optional string column holds the empty string. */
  predicate NoEmptyOptionals(u: User) {
    u.email != Some("") && u.admnNo != Some("") && u.className != Some("") && u.section != Some("")
  }

  /** Opening a user and submitting the untouched form writes back exactly the
      user's editable fields, provided no optional column held `''` (such a
      value comes back as `null`). */
  lemma EditThenNormalise(ed: UserEditor, u: User)
    ensures Normalise(EditUser(ed, u).form) == EditableFields(u) <==> NoEmptyOptionals(u)
  {
    var d := Normalise(EditUser(ed, u).form);
    if u.fingerprintId.Some? {
      ParseIntRoundTrip(u.fingerprintId.value);
    }
    if !NoEmptyOptionals(u) {
      assert d.email != u.email || d.admnNo != u.admnNo || d.className != u.className || d.section != u.section;
    }
  }

  /** `resetForm`: role back to 'student', all else emptied, nobody being
      edited; the dialog flag is not touched. */
  function ResetForm(ed: UserEditor): (r: UserEditor)
    ensures r.form.role == "student"
    ensures r.form.name == "" && r.form.email == "" && r.form.admnNo == ""
    ensures r.form.className == "" && r.form.section == "" && r.form.fingerprintId == ""
    ensures r.editing.None? && r.dialogOpen == ed.dialogOpen
  {
    ed.(form := EmptyForm, editing := None)
  }

  /** A reset form submits a student with no optional data at all. */
  lemma ResetFormSubmitsBareStudent(ed: UserEditor)
    ensures Normalise(ResetForm(ed).form) == UserData("", None, "student", None, None, None, None)
  {
  }
}

=== FILE: common.dfy ===
/** Small generic vocabulary shared by every component: an optional value,
    the order-preserving filter that `Array.prototype.filter` performs, the
    subsequence relation it establishes, the bounded prepend of the live log
    views, and the three outcomes of a client-side query. */
module Common {

  /** `null` in the source. */
  datatype Option<+T> = None | Some(value: T) {
    /** `x ?? d` */
    function GetOr(default: T): T {
      match this
      case Some(v) => v
      case None => default
    }
  }

  /** What a client query hands back to a page: the error branch, a `null`
      data field without error, or the rows themselves. */
  datatype Fetch<T> = FetchFailed | FetchNull | FetchRows(rows: seq<T>)

  function Min(a: int, b: int): int {
    if a <= b then a else b
  }

  function Last<T>(s: seq<T>): T
    requires |s| > 0
  {
    s[|s| - 1]
  }

  /** `a` is obtained from `b` by deleting elements, keeping the order of the
      ones that remain. */
  predicate IsSubsequence<T(==)>(a: seq<T>, b: seq<T>)
    decreases |b|
  {
    if a == [] then true
    else if b == [] then false
    else (a[0] == b[0] && IsSubsequence(a[1..], b[1..])) || IsSubsequence(a, b[1..])
  }

  lemma {:induction false} SubsequenceReflexive<T>(a: seq<T>)
    ensures IsSubsequence(a, a)
    decreases |a|
  {
    if a != [] {
      SubsequenceReflexive(a[1..]);
    }
  }

  lemma {:induction false} SubsequenceTransitive<T>(a: seq<T>, b: seq<T>, c: seq<T>)
    requires IsSubsequence(a, b) && IsSubsequence(b, c)
    ensures IsSubsequence(a, c)
    decreases |c|
  {
    if a == [] {
    } else if b == [] {
    } else if c == [] {
    } else if b[0] == c[0] && IsSubsequence(b[1..], c[1..]) {
      if a[0] == b[0] && IsSubsequence(a[1..], b[1..]) {
        SubsequenceTransitive(a[1..], b[1..], c[1..]);
      } else {
        SubsequenceTransitive(a, b[1..], c[1..]);
      }
    } else {
      SubsequenceTransitive(a, b, c[1..]);
    }
  }

  /** `xs.filter(p)`: keeps, in order, exactly the elements satisfying `p`. */
  function Filter<T>(xs: seq<T>, p: T -> bool): (r: seq<T>)
    ensures |r| <= |xs|
    ensures IsSubsequence(r, xs)
    ensures forall x :: x in r ==> x in xs && p(x)
    ensures forall x :: x in xs && p(x) ==> x in r
  {
    if xs == [] then []
    else if p(xs[0]) then [xs[0]] + Filter(xs[1..], p)
    else
      var rest := Filter(xs[1..], p);
      assert rest == [] || IsSubsequence(rest, xs[1..]);
      rest
  }

  lemma {:induction false} FilterAppend<T>(a: seq<T>, b: seq<T>, p: T -> bool)
    ensures Filter(a + b, p) == Filter(a, p) + Filter(b, p)
    decreases |a|
  {
    if a == [] {
      assert a + b == b;
    } else {
      assert (a + b)[1..] == a[1..] + b;
      FilterAppend(a[1..], b, p);
    }
  }

  /** The filter keeps every copy of an element satisfying `p` and no copy
      of any other. */
  lemma {:induction false} FilterCounts<T>(xs: seq<T>, p: T -> bool)
    ensures forall x :: multiset(Filter(xs, p))[x] == if p(x) then multiset(xs)[x] else 0
    decreases |xs|
  {
    if xs != [] {
      FilterCounts(xs[1..], p);
      assert xs == [xs[0]] + xs[1..];
      assert multiset(xs) == multiset([xs[0]]) + multiset(xs[1..]);
    }
  }

  /** `s.slice(0, n)` for a non-negative `n`. */
  function Take<T>(s: seq<T>, n: nat): (r: seq<T>)
    ensures |r| == Min(|s|, n)
    ensures r == s[..|r|]
  {
    if |s| <= n then s else s[..n]
  }

  /** `[x, ...xs].slice(0, bound)`: the newest entry in front, the oldest
      entries dropped once `bound` is exceeded. */
  function PrependBounded<T>(x: T, xs: seq<T>, bound: nat): (r: seq<T>)
    requires bound > 0
    ensures |r| == Min(|xs| + 1, bound)
    ensures r[0] == x
    ensures r[1..] == xs[..|r| - 1]
  {
    Take([x] + xs, bound)
  }
}

=== FILE: consistency.dfy ===
/** How the two attendance writers feed the dashboard's counts: the raw-scan
    path writes rows that no bucket ever counts, and the marking path writes
    rows that land in exactly one bucket, never in 'late'. */
module Consistency {
  import opened Common
  import opened Js
  import opened Tables
  import opened Http
  import LogFingerprintHandler
  import MarkAttendanceHandler
  import DashboardPage

  /** A raw scan leaves every dashboard number as it was, whatever day
      window the dashboard counts. */
  lemma RawScanNeverCounted(req: Request, db: Db, oracle: LogFingerprintHandler.ScanOracle,
                            total: Option<nat>, inWindow: string -> bool)
    ensures var after := LogFingerprintHandler.Handle(req, db, oracle).db;
            DashboardPage.ComputeStats(total, Some(DashboardPage.DayRows(after.attendance, inWindow)))
            == DashboardPage.ComputeStats(total, Some(DashboardPage.DayRows(db.attendance, inWindow)))
  {
    var after := LogFingerprintHandler.Handle(req, db, oracle).db;
    if after != db {
      var row := Last(after.attendance);
      assert after.attendance == db.attendance + [row];
      DashboardPage.DayRowsAppend(db.attendance, row, inWindow);
      DashboardPage.StatsAfterAppend(total, DashboardPage.DayRows(db.attendance, inWindow), row);
    }
  }

  /** A mark that succeeds (exactly when the reply is 200) appends one row
      stamped with the current time, whose status is the lower-cased
      requested status. */
  lemma MarkAppendsStatusRow(req: Request, db: Db, oracle: MarkAttendanceHandler.MarkOracle)
    requires MarkAttendanceHandler.MarkSucceeds(req, db, oracle)
    ensures var after := MarkAttendanceHandler.Handle(req, db, oracle).db.attendance;
            && |after| > 0
            && after == db.attendance + [Last(after)]
            && Last(after).timestamp == Some(oracle.now)
            && Last(after).status ==
                 Some(if BodyField(req, "status") == Str("PRESENT") then "present" else "absent")
  {
    var o := MarkAttendanceHandler.Handle(req, db, oracle);
    assert MarkAttendanceHandler.RecordedFromRequest(req, db, o, oracle);
    assert o.db.attendance == db.attendance + [Last(o.db.attendance)];
  }

  /** A successful mark whose time falls in the dashboard's day window adds
      one to 'present' for PRESENT and to 'absent' for ABSENT, and never
      changes 'late'. */
  lemma MarkCountedOnce(req: Request, db: Db, oracle: MarkAttendanceHandler.MarkOracle,
                        total: Option<nat>, inWindow: string -> bool)
    requires MarkAttendanceHandler.MarkSucceeds(req, db, oracle)
    requires inWindow(oracle.now)
    ensures var o := MarkAttendanceHandler.Handle(req, db, oracle);
            var before := DashboardPage.ComputeStats(total, Some(DashboardPage.DayRows(db.attendance, inWindow)));
            var after := DashboardPage.ComputeStats(total, Some(DashboardPage.DayRows(o.db.attendance, inWindow)));
            var present := BodyField(req, "status") == Str("PRESENT");
            && after.lateToday == before.lateToday
            && after.presentToday == before.presentToday + (if present then 1 else 0)
            && after.absentToday == before.absentToday + (if present then 0 else 1)
  {
    var after := MarkAttendanceHandler.Handle(req, db, oracle).db.attendance;
    MarkAppendsStatusRow(req, db, oracle);
    DashboardPage.DayRowsAppend(db.attendance, Last(after), inWindow);
    DashboardPage.StatsAfterAppend(total, DashboardPage.DayRows(db.attendance, inWindow), Last(after));
  }

  /** A successful mark whose time falls outside the window (for instance
      one stamped after `T23:59:59` but before midnight) changes no number
      on that day's dashboard. */
  lemma MarkOutsideWindowUncounted(req: Request, db: Db, oracle: MarkAttendanceHandler.MarkOracle,
                                   total: Option<nat>, inWindow: string -> bool)
    requires MarkAttendanceHandler.MarkSucceeds(req, db, oracle)
    requires !inWindow(oracle.now)
    ensures var o := MarkAttendanceHandler.Handle(req, db, oracle);
            DashboardPage.ComputeStats(total, Some(DashboardPage.DayRows(o.db.attendance, inWindow)))
            == DashboardPage.ComputeStats(total, Some(DashboardPage.DayRows(db.attendance, inWindow)))
  {
    var after := MarkAttendanceHandler.Handle(req, db, oracle).db.attendance;
    MarkAppendsStatusRow(req, db, oracle);
    DashboardPage.DayRowsAppend(db.attendance, Last(after), inWindow);
  }
}

=== FILE: dashboard_page.dfy ===
/** The dashboard: the four headline numbers computed in `fetchData`, and the
    colour of the status dot in the recent-attendance list. */
module DashboardPage {
  import opened Common
  import opened Tables

  datatype Stats = Stats(totalStudents: nat, presentToday: nat, lateToday: nat, absentToday: nat)

  /** `todayAttendance?.filter(a => a.status === status).length || 0` */
  function CountStatus(today: Option<seq<AttendanceRow>>, status: string): nat {
    match today
    case Some(rows) => |Filter(rows, (a: AttendanceRow) => a.status == Some(status))|
    case None => 0
  }

  /** Reference count: rows whose status is exactly `status`. */
  function Tally(rows: seq<AttendanceRow>, status: string): nat {
    if rows == [] then 0
    else (if rows[0].status == Some(status) then 1 else 0) + Tally(rows[1..], status)
  }

  /** Rows whose status is none of the three the dashboard counts (among
      them every row without a status). */
  function Uncounted(rows: seq<AttendanceRow>): nat {
    if rows == [] then 0
    else (if rows[0].status !in {Some("present"), Some("late"), Some("absent")} then 1 else 0) + Uncounted(rows[1..])
  }

  lemma {:induction false} CountStatusIsTally(rows: seq<AttendanceRow>, status: string)
    ensures CountStatus(Some(rows), status) == Tally(rows, status)
    decreases |rows|
  {
    if rows != [] {
      CountStatusIsTally(rows[1..], status);
    }
  }

  /** Every row lands in at most one bucket: the three counts and the
      uncounted rows add up to the number of rows. */
  lemma {:induction false} BucketsPartitionRows(rows: seq<AttendanceRow>)
    ensures Tally(rows, "present") + Tally(rows, "late") + Tally(rows, "absent") + Uncounted(rows) == |rows|
    decreases |rows|
  {
    if rows != [] {
      BucketsPartitionRows(rows[1..]);
    }
  }

  /** `fetchData`'s numbers: `totalCount || 0` students, and today's rows
      counted per status; missing data counts as zero everywhere. */
  function ComputeStats(totalCount: Option<nat>, today: Option<seq<AttendanceRow>>): (s: Stats)
    ensures totalCount.None? ==> s.totalStudents == 0
    ensures totalCount.Some? ==> s.totalStudents == totalCount.value
    ensures today.None? ==> s.presentToday == 0 && s.lateToday == 0 && s.absentToday == 0
    ensures today.Some? ==>
              && s.presentToday == Tally(today.value, "present")
              && s.lateToday == Tally(today.value, "late")
              && s.absentToday == Tally(today.value, "absent")
              && s.presentToday + s.lateToday + s.absentToday == |today.value| - Uncounted(today.value)
  {
    var s := Stats(
      match totalCount case Some(n) => n case None => 0,
      CountStatus(today, "present"),
      CountStatus(today, "late"),
      CountStatus(today, "absent"));
    if today.Some? then CountsAreTallies(today.value); s else s
  }

  lemma CountsAreTallies(rows: seq<AttendanceRow>)
    ensures CountStatus(Some(rows), "present") == Tally(rows, "present")
    ensures CountStatus(Some(rows), "late") == Tally(rows, "late")
    ensures CountStatus(Some(rows), "absent") == Tally(rows, "absent")
    ensures Tally(rows, "present") + Tally(rows, "late") + Tally(rows, "absent") == |rows| - Uncounted(rows)
  {
    CountStatusIsTally(rows, "present");
    CountStatusIsTally(rows, "late");
    CountStatusIsTally(rows, "absent");
    BucketsPartitionRows(rows);
  }

  lemma {:induction false} TallyAppend(rows: seq<AttendanceRow>, row: AttendanceRow, status: string)
    ensures Tally(rows + [row], status) == Tally(rows, status) + (if row.status == Some(status) then 1 else 0)
    decreases |rows|
  {
    if rows == [] {
      assert rows + [row] == [row];
    } else {
      assert (rows + [row])[1..] == rows[1..] + [row];
      TallyAppend(rows[1..], row, status);
    }
  }

  /** The rows `fetchData` asks for: those whose `timestamp` lies in the day
      window (`gte`/`lte` on the column; a null timestamp matches neither).
      The window itself, built from the current UTC date, is a parameter. */
  function DayRows(rows: seq<AttendanceRow>, inWindow: string -> bool): (r: seq<AttendanceRow>)
    ensures forall a :: a in r <==> a in rows && a.timestamp.Some? && inWindow(a.timestamp.value)
    ensures IsSubsequence(r, rows)
    // every copy of an in-window row is kept, so two identical scans count twice
    ensures forall a :: multiset(r)[a] == if a.timestamp.Some? && inWindow(a.timestamp.value) then multiset(rows)[a] else 0
  {
    FilterCounts(rows, (a: AttendanceRow) => a.timestamp.Some? && inWindow(a.timestamp.value));
    Filter(rows, (a: AttendanceRow) => a.timestamp.Some? && inWindow(a.timestamp.value))
  }

  /** Appending a row adds it to the day's rows exactly when its timestamp
      is in the window. */
  lemma DayRowsAppend(rows: seq<AttendanceRow>, row: AttendanceRow, inWindow: string -> bool)
    ensures row.timestamp.Some? && inWindow(row.timestamp.value) ==>
              DayRows(rows + [row], inWindow) == DayRows(rows, inWindow) + [row]
    ensures !(row.timestamp.Some? && inWindow(row.timestamp.value)) ==>
              DayRows(rows + [row], inWindow) == DayRows(rows, inWindow)
  {
    var p := (a: AttendanceRow) => a.timestamp.Some? && inWindow(a.timestamp.value);
    FilterAppend(rows, [row], p);
    assert Filter([row], p) == (if p(row) then [row] else []);
    if !p(row) {
      assert DayRows(rows, inWindow) + [] == DayRows(rows, inWindow);
    }
  }

  /** One more row moves at most one count by one: the count of the row's
      own status, if it is one of the three. */
  lemma StatsAfterAppend(total: Option<nat>, rows: seq<AttendanceRow>, row: AttendanceRow)
    ensures var before := ComputeStats(total, Some(rows));
            var after := ComputeStats(total, Some(rows + [row]));
            && after.totalStudents == before.totalStudents
            && after.presentToday == before.presentToday + (if row.status == Some("present") then 1 else 0)
            && after.lateToday == before.lateToday + (if row.status == Some("late") then 1 else 0)
            && after.absentToday == before.absentToday + (if row.status == Some("absent") then 1 else 0)
  {
    TallyAppend(rows, row, "present");
    TallyAppend(rows, row, "late");
    TallyAppend(rows, row, "absent");
  }

  datatype Dot = Success | Warning | DestructiveDot

  /** The dot colour of a recent-attendance entry. */
  function StatusDot(status: Option<string>): (d: Dot)
    ensures d == Success <==> status == Some("present")
    ensures d == Warning <==> status == Some("late")
    ensures d == DestructiveDot <==> status != Some("present") && status != Some("late")
  {
    if status == Some("present") then Success
    else if status == Some("late") then Warning
    else DestructiveDot
  }
}

=== FILE: finger_login.dfy ===
/** The `finger-login` serverless handler: validates a scanned fingerprint
    id, resolves it to at most one user, always logs the attempt, and answers
    with the user (200), "unknown fingerprint" (404) or an error. */
module FingerLoginHandler {
  import opened Common
  import opened Js
  import opened Tables
  import opened Http

  /** The user fields a successful login reveals. */
  datatype PublicUser = PublicUser(
    id: string,
    name: string,
    role: string,
    className: Option<string>,
    section: Option<string>)

  datatype LoginBody =
    | LoginError(error: string)
    | LoggedIn(user: PublicUser, fingerprintId: int, loggedInAt: string)
      /** `{ success: false, error: 'Unknown fingerprint', ... }` */
    | UnknownFingerprint(fingerprintId: int, loggedInAt: string)

  /** What the handler learns from outside: whether the user lookup and the
      log insert fail, and the current time as an ISO string. */
  datatype LoginOracle = LoginOracle(lookupFails: bool, insertFails: bool, now: string)

  function PublicFields(u: User): (p: PublicUser)
    ensures p.id == u.id && p.name == u.name && p.role == u.role
    ensures p.className == u.className && p.section == u.section
  {
    PublicUser(u.id, u.name, u.role, u.className, u.section)
  }

  /** `x || null` on an optional body field. */
  function OrNull(v: Value): (r: Option<Value>)
    ensures r.Some? <==> Truthy(v)
    ensures r.Some? ==> r.value == v
  {
    if Truthy(v) then Some(v) else None
  }

  /** `user?.id || null`: an empty id counts as no id. */
  function ResolvedUserId(user: Option<User>): (r: Option<string>)
    ensures r.Some? <==> user.Some? && user.value.id != ""
    ensures r.Some? ==> r.value == user.value.id
  {
    match user
    case Some(u) => if u.id != "" then Some(u.id) else None
    case None => None
  }

  /** `after` is `before` with one row appended to `finger_login_logs` and
      every other table untouched. */
  predicate LoggedOneRow(before: Db, after: Db) {
    && after.users == before.users
    && after.students == before.students
    && after.attendance == before.attendance
    && |after.loginLogs| == |before.loginLogs| + 1
    && after.loginLogs[..|before.loginLogs|] == before.loginLogs
  }

  /** The body keys the handler reads. */
  const FingerprintKey := "fingerprint_id"
  const DeviceKey := "device_id"

  /** A POST whose body was read and whose `fingerprint_id` passed both checks. */
  predicate ValidLogin(req: Request) {
    req.verb == "POST" && req.payload.Parsed? && CheckFingerprintId(BodyField(req, FingerprintKey)).Accepted?
  }

  /** `o` logged the attempt for fingerprint `n` from `device` and answered
      it: the appended row carries the id, the time, the device when one was
      sent and the resolved user when exactly one matched; the reply is that
      user (200) or "unknown fingerprint" (404). */
  predicate LoggedAttempt(n: int, device: Value, db: Db, oracle: LoginOracle, o: Outcome<LoginBody>) {
    && LoggedOneRow(db, o.db)
    && var row := Last(o.db.loginLogs);
       var matches := UsersWithFingerprint(db.users, n);
       var found := !oracle.lookupFails && |matches| == 1;
       && row.fingerprintId == n
       && row.loginTime == oracle.now
       && (row.deviceId.Some? <==> Truthy(device))
       && (row.deviceId.Some? ==> row.deviceId.value == device)
       && (row.userId.Some? <==> found && matches[0].id != "")
       && (row.userId.Some? ==> row.userId.value == matches[0].id)
       && (found ==> o.response == Reply(200, LoggedIn(PublicFields(matches[0]), n, oracle.now)))
       && (!found ==> o.response == Reply(404, UnknownFingerprint(n, oracle.now)))
  }

  /** Everything after validation: look the id up, build the log row, insert
      it, and answer. */
  function Attempt(n: int, device: Value, db: Db, oracle: LoginOracle): (o: Outcome<LoginBody>)
    ensures oracle.insertFails ==> o == Outcome(Reply(500, LoginError(LogFailed)), db)
    ensures !oracle.insertFails ==> LoggedAttempt(n, device, db, oracle, o)
    ensures !oracle.insertFails ==> o.response.Reply? && (o.response.code == 200 || o.response.code == 404)
    // a failed lookup is not fatal: the attempt is logged without a user and answered 404
    ensures oracle.lookupFails && !oracle.insertFails ==>
              o.response.Status() == 404 && Last(o.db.loginLogs).userId == None
  {
    var user := SingleRow(UsersWithFingerprint(db.users, n), oracle.lookupFails);
    var row := LoginLogRow(n, ResolvedUserId(user), OrNull(device), oracle.now);
    if oracle.insertFails then Outcome(Reply(500, LoginError(LogFailed)), db)
    else
      var after := db.(loginLogs := db.loginLogs + [row]);
      if user.Some? then Outcome(Reply(200, LoggedIn(PublicFields(user.value), n, oracle.now)), after)
      else Outcome(Reply(404, UnknownFingerprint(n, oracle.now)), after)
  }

  function Handle(req: Request, db: Db, oracle: LoginOracle): (o: Outcome<LoginBody>)
    ensures req.verb == "OPTIONS" ==> o == Outcome(Preflight, db)
    ensures req.verb != "OPTIONS" && req.verb != "POST" ==>
              o == Outcome(Reply(405, LoginError(MethodNotAllowed)), db)
    ensures req.verb == "POST" && req.payload.Unparseable? ==>
              o == Outcome(Reply(500, LoginError(InternalError)), db)
    ensures req.verb == "POST" && req.payload.Parsed? && !Present(BodyField(req, FingerprintKey)) ==>
              o == Outcome(Reply(400, LoginError(IdRequired)), db)
    ensures req.verb == "POST" && req.payload.Parsed? && Present(BodyField(req, FingerprintKey))
              && ParseValue(BodyField(req, FingerprintKey)).NaN? ==>
              o == Outcome(Reply(400, LoginError(IdNotANumber)), db)
    // the log insert failing is fatal, whatever the lookup found
    ensures ValidLogin(req) && oracle.insertFails ==>
              o == Outcome(Reply(500, LoginError(LogFailed)), db)
    // nothing but one appended log row is ever written
    ensures o.db == db || LoggedOneRow(db, o.db)
    ensures LoggedOneRow(db, o.db) <==> ValidLogin(req) && !oracle.insertFails
    // a 200 or 404 reply never goes out without its log row
    ensures o.response.Reply? && (o.response.code == 200 || o.response.code == 404) <==> LoggedOneRow(db, o.db)
    // the logged row is for the id the body sent, and the reply matches it
    ensures LoggedOneRow(db, o.db) ==>
              && CheckFingerprintId(BodyField(req, FingerprintKey)) == Accepted(Last(o.db.loginLogs).fingerprintId)
              && LoggedAttempt(Last(o.db.loginLogs).fingerprintId, BodyField(req, DeviceKey), db, oracle, o)
    ensures ValidLogin(req) && oracle.lookupFails && !oracle.insertFails ==>
              o.response.Status() == 404 && LoggedOneRow(db, o.db) && Last(o.db.loginLogs).userId == None
  {
    if req.verb == "OPTIONS" then Outcome(Preflight, db)
    else if req.verb != "POST" then Outcome(Reply(405, LoginError(MethodNotAllowed)), db)
    else match req.payload
      case Unparseable(_) => Outcome(Reply(500, LoginError(InternalError)), db)
      case Parsed(fields) =>
        match CheckFingerprintId(Field(fields, FingerprintKey))
        case Rejected(error) => Outcome(Reply(400, LoginError(error)), db)
        case Accepted(n) => Attempt(n, Field(fields, DeviceKey), db, oracle)
  }
}

=== FILE: finger_login_page.dfy ===
/** The live fingerprint-login monitor: an initial fetch of the newest 50
    log rows and a realtime subscription that prepends each newly inserted
    row, keeping at most 50. */
module FingerLoginPage {
  import opened Common
  import AdminUsersPage

  /** The joined user columns shown next to a log row. */
  datatype UserSummary = UserSummary(name: string, role: string, className: Option<string>, section: Option<string>)

  /** A `finger_login_logs` row joined with its user. */
  datatype LoginLogView = LoginLogView(
    id: string,
    fingerprintId: int,
    userId: Option<string>,
    deviceId: Option<string>,
    loginTime: string,
    user: Option<UserSummary>)

  /** The page state: the log list and the last login card. */
  datatype Monitor = Monitor(logs: seq<LoginLogView>, lastLogin: Option<LoginLogView>)

  /** The list bound, also the `limit` of the initial query. */
  const MaxLogs: nat := 50

  const InitialMonitor: Monitor := Monitor([], None)

  /** The initial `fetchLogs`: on error, or on empty data, nothing changes;
      otherwise the rows replace the list and the first one becomes the last
      login. */
  function InitialFetch(m: Monitor, f: Fetch<LoginLogView>): (r: Monitor)
    ensures !(f.FetchRows? && f.rows != []) ==> r == m
    ensures f.FetchRows? && f.rows != [] ==> r.logs == f.rows && r.lastLogin == Some(f.rows[0])
  {
    match f
    case FetchRows(rows) => if |rows| > 0 then Monitor(rows, Some(rows[0])) else m
    case _ => m
  }

  /** The realtime handler once it re-read the inserted row with its user
      (`None` when that read returned nothing). */
  function OnInsert(m: Monitor, fetched: Option<LoginLogView>): (r: Monitor)
    ensures fetched.None? ==> r == m
    ensures fetched.Some? ==>
              && 0 < |r.logs| <= MaxLogs
              && |r.logs| == Min(|m.logs| + 1, MaxLogs)
              && r.logs[0] == fetched.value
              && r.lastLogin == fetched
              && r.logs[1..] == m.logs[..|r.logs| - 1]
  {
    match fetched
    case Some(log) => Monitor(PrependBounded(log, m.logs, MaxLogs), Some(log))
    case None => m
  }

  /** `getRoleBadgeVariant` of this page, which also accepts a missing role. */
  function RoleBadge(role: Option<string>): (v: AdminUsersPage.BadgeVariant)
    ensures role.None? ==> v == AdminUsersPage.Outline
    ensures role.Some? ==> v == AdminUsersPage.RoleBadgeVariant(role.value)
  {
    match role
    case None => AdminUsersPage.Outline
    case Some(r) =>
      match r
      case "admin" => AdminUsersPage.Destructive
      case "teacher" => AdminUsersPage.Default
      case "student" => AdminUsersPage.Secondary
      case _ => AdminUsersPage.Outline
  }

  datatype MonitorEvent = Fetched(f: Fetch<LoginLogView>) | Inserted(fetched: Option<LoginLogView>)

  /** The state after a sequence of events, oldest first. */
  function Run(m: Monitor, events: seq<MonitorEvent>): Monitor
    decreases |events|
  {
    if events == [] then m
    else
      var next := match events[0]
        case Fetched(f) => InitialFetch(m, f)
        case Inserted(x) => OnInsert(m, x);
      Run(next, events[1..])
  }

  /** The last-login card always shows the head of the list, and is empty
      only while the list is. */
  predicate Coherent(m: Monitor) {
    (m.logs == [] && m.lastLogin.None?) || (m.logs != [] && m.lastLogin == Some(m.logs[0]))
  }

  /** Fetches honour the query's `limit(50)`. */
  predicate FetchWithinLimit(e: MonitorEvent) {
    e.Fetched? && e.f.FetchRows? ==> |e.f.rows| <= MaxLogs
  }

  /** From the page's initial state (no rows, no last login), any sequence
      of fetches within the query limit and realtime inserts keeps at most 50
      rows with the last-login card on the head. */
  lemma MonitorStaysBounded(events: seq<MonitorEvent>)
    requires forall i :: 0 <= i < |events| ==> FetchWithinLimit(events[i])
    ensures |Run(InitialMonitor, events).logs| <= MaxLogs
    ensures Coherent(Run(InitialMonitor, events))
  {
    RunKeepsBoundAndCoherence(InitialMonitor, events);
  }

  /** Starting from a coherent list of at most 50 rows, any sequence of
      fetches (within the query limit) and realtime inserts keeps the list at
      most 50 long and the last-login card on its head. */
  lemma {:induction false} RunKeepsBoundAndCoherence(m: Monitor, events: seq<MonitorEvent>)
    requires |m.logs| <= MaxLogs && Coherent(m)
    requires forall i :: 0 <= i < |events| ==> FetchWithinLimit(events[i])
    ensures |Run(m, events).logs| <= MaxLogs
    ensures Coherent(Run(m, events))
    decreases |events|
  {
    if events != [] {
      assert FetchWithinLimit(events[0]);
      var next := match events[0]
        case Fetched(f) => InitialFetch(m, f)
        case Inserted(x) => OnInsert(m, x);
      assert |next.logs| <= MaxLogs && Coherent(next);
      assert forall i :: 0 <= i < |events[1..]| ==> FetchWithinLimit(events[1..][i]) by {
        forall i | 0 <= i < |events[1..]| ensures FetchWithinLimit(events[1..][i]) {
          assert events[1..][i] == events[i + 1];
        }
      }
      RunKeepsBoundAndCoherence(next, events[1..]);
    }
  }
}

=== FILE: fingerprint_logs_page.dfy ===
/** The raw-scan monitor: a fetch of recent attendance rows and a realtime
    subscription that prepends every inserted row, with no bound. */
module FingerprintLogsPage {
  import opened Common

  /** An attendance row as this page reads it. Rows written by the marking
      path carry no fingerprint id. */
  datatype ScanLog = ScanLog(id: string, fingerprintId: Option<int>, createdAt: string)

  datatype ScanMonitor = ScanMonitor(logs: seq<ScanLog>, lastScanned: Option<ScanLog>)

  const InitialScanMonitor: ScanMonitor := ScanMonitor([], None)

  /** `fetchLogs`: on error or absent data nothing changes; otherwise the
      rows replace the list, and the first row (if any) becomes the last
      scan. An empty result empties the list but keeps the last scan. */
  function FetchLogs(m: ScanMonitor, f: Fetch<ScanLog>): (r: ScanMonitor)
    ensures !f.FetchRows? ==> r == m
    ensures f.FetchRows? ==> r.logs == f.rows
    ensures f.FetchRows? && f.rows != [] ==> r.lastScanned == Some(f.rows[0])
    ensures f.FetchRows? && f.rows == [] ==> r.lastScanned == m.lastScanned
  {
    match f
    case FetchRows(rows) => ScanMonitor(rows, if |rows| > 0 then Some(rows[0]) else m.lastScanned)
    case _ => m
  }

  /** The realtime handler: the new row in front of the whole previous list. */
  function OnScan(m: ScanMonitor, row: ScanLog): (r: ScanMonitor)
    ensures |r.logs| == |m.logs| + 1
    ensures r.logs[0] == row && r.logs[1..] == m.logs
    ensures r.lastScanned == Some(row)
  {
    ScanMonitor([row] + m.logs, Some(row))
  }

  /** Feeding `rows` to the realtime handler one after another. */
  function ScanAll(m: ScanMonitor, rows: seq<ScanLog>): ScanMonitor
    decreases |rows|
  {
    if rows == [] then m else ScanAll(OnScan(m, rows[0]), rows[1..])
  }

  function Reverse<T>(s: seq<T>): seq<T> {
    if s == [] then [] else Reverse(s[1..]) + [s[0]]
  }

  /** Nothing is ever dropped: after k realtime inserts the list holds the k
      new rows, newest first, in front of the old list. */
  lemma {:induction false} ScanAllPrependsEverything(m: ScanMonitor, rows: seq<ScanLog>)
    ensures ScanAll(m, rows).logs == Reverse(rows) + m.logs
    ensures |ScanAll(m, rows).logs| == |m.logs| + |rows|
    decreases |rows|
  {
    if rows != [] {
      ScanAllPrependsEverything(OnScan(m, rows[0]), rows[1..]);
      assert Reverse(rows[1..]) + ([rows[0]] + m.logs) == Reverse(rows) + m.logs;
    }
  }

  /** Unlike the login monitor, this page can show a last scan that is no
      longer in its list: a fetch returning no rows empties the list but
      keeps the card. */
  lemma StaleLastScan(row: ScanLog)
    ensures var m := FetchLogs(OnScan(InitialScanMonitor, row), FetchRows([]));
            m.logs == [] && m.lastScanned == Some(row)
  {
  }
}

=== FILE: http.dfy ===
/** Requests, responses and the validation step the two fingerprint
    handlers share. */
module Http {
  import opened Common
  import opened Js
  import opened Tables

  /** What `await req.json()` yields: the fields of the body object, or the
      message of the exception it throws (a malformed body, or a `null`
      body whose destructuring throws). */
  datatype Payload = Parsed(fields: map<string, Value>) | Unparseable(message: string)

  datatype Request = Request(verb: string, payload: Payload)

  /** Reading a key of the destructured body; an absent key is `undefined`. */
  function Field(fields: map<string, Value>, key: string): (v: Value)
    ensures key !in fields ==> v == Undefined
  {
    if key in fields then fields[key] else Undefined
  }

  /** A body field, `undefined` when the body could not be read. */
  function BodyField(req: Request, key: string): Value {
    match req.payload
    case Parsed(fields) => Field(fields, key)
    case Unparseable(_) => Undefined
  }

  /** `after` is `before` with one row appended to `attendance` and every
      other table untouched. */
  predicate AddedOneAttendanceRow(before: Db, after: Db) {
    && after.users == before.users
    && after.students == before.students
    && after.loginLogs == before.loginLogs
    && |after.attendance| == |before.attendance| + 1
    && after.attendance[..|before.attendance|] == before.attendance
  }

  const CorsHeaders: seq<(string, string)> := [
    ("Access-Control-Allow-Origin", "*"),
    ("Access-Control-Allow-Headers", "authorization, x-client-info, apikey, content-type")
  ]

  /** A handler's answer: the empty-bodied answer to a CORS preflight, or a
      JSON reply with a status code and a body of the handler's own shape. */
  datatype Response<B> = Preflight | Reply(code: int, body: B) {
    function Status(): int {
      if Preflight? then 200 else code
    }

    /** Every answer carries the CORS headers; replies add the JSON type. */
    function Headers(): (h: seq<(string, string)>)
      ensures |h| >= |CorsHeaders| && h[..|CorsHeaders|] == CorsHeaders
      ensures |h| == |CorsHeaders| <==> Preflight?
    {
      if Preflight? then CorsHeaders else CorsHeaders + [("Content-Type", "application/json")]
    }
  }

  /** One request processed to completion: the answer and the database after. */
  datatype Outcome<B> = Outcome(response: Response<B>, db: Db)

  /** The negation of the code's absence test `!v && v !== 0`: a truthy
      value, or the number 0. */
  predicate Present(v: Value) {
    Truthy(v) || v == Number(0)
  }

  /** The fixed error messages the handlers share. */
  const MethodNotAllowed := "Method not allowed"
  const InternalError := "Internal server error"
  const LogFailed := "Failed to log fingerprint"
  const IdRequired := "fingerprint_id is required"
  const IdNotANumber := "fingerprint_id must be a number"

  datatype IdCheck = Accepted(id: int) | Rejected(error: string)

  /** The two checks on `fingerprint_id` before any database access: present
      (0 allowed), then `parseInt` not `NaN`. */
  function CheckFingerprintId(v: Value): (c: IdCheck)
    ensures !Present(v) <==> c == Rejected(IdRequired)
    ensures Present(v) && ParseValue(v).NaN? <==> c == Rejected(IdNotANumber)
    ensures c.Accepted? <==> Present(v) && ParseValue(v).Int?
    ensures c.Accepted? ==> ParseValue(v) == Int(c.id)
  {
    if !Present(v) then Rejected(IdRequired)
    else match ParseValue(v)
      case NaN => Rejected(IdNotANumber)
      case Int(n) => Accepted(n)
  }

  /** A JSON integer sent as the id is accepted as itself. */
  lemma NumberIdAccepted(n: int)
    ensures CheckFingerprintId(Number(n)) == Accepted(n)
  {
    ParseIntRoundTrip(n);
  }
}

=== FILE: js.dfy ===
/** The slice of JavaScript value semantics the handlers and pages rely on:
    the values a parsed JSON body can hold, truthiness, `String(v)`,
    `parseInt` without a radix argument, ASCII `toLowerCase` and
    `String.prototype.includes`. Numbers are integers (below 10^21, so that
    `String(n)` is plain decimal). */
module Js {

  /** A field of a parsed JSON request body; `Undefined` is an absent key,
      `Object` a plain object. */
  datatype Value = Undefined | Null | Bool(b: bool) | Number(n: int) | Str(s: string) | Object

  /** JavaScript truthiness: `undefined`, `null`, `false`, `0` and `""` are
      falsy, everything else is truthy. */
  predicate Truthy(v: Value) {
    match v
    case Undefined => false
    case Null => false
    case Bool(b) => b
    case Number(n) => n != 0
    case Str(s) => s != ""
    case Object => true
  }

  predicate IsDecimalDigit(c: char) {
    '0' <= c <= '9'
  }

  /** The value of `c` as a digit of radix 16 or below, or -1. */
  function DigitValue(c: char): int {
    if '0' <= c <= '9' then c as int - '0' as int
    else if 'a' <= c <= 'f' then c as int - 'a' as int + 10
    else if 'A' <= c <= 'F' then c as int - 'A' as int + 10
    else -1
  }

  predicate IsDigit(c: char, radix: nat) {
    0 <= DigitValue(c) < radix
  }

  function DigitChar(d: nat): (c: char)
    requires d < 10
    ensures IsDecimalDigit(c) && DigitValue(c) == d
  {
    ('0' as int + d) as char
  }

  /** The decimal numeral of `n`, without leading zeros. */
  function NatToDecimal(n: nat): (s: string)
    ensures |s| > 0
    ensures forall i :: 0 <= i < |s| ==> IsDecimalDigit(s[i])
    decreases n
  {
    if n < 10 then [DigitChar(n)] else NatToDecimal(n / 10) + [DigitChar(n % 10)]
  }

  /** `String(n)` / `n.toString()` for an integer. */
  function IntToString(n: int): (s: string)
    ensures |s| > 0
    ensures s[0] == '-' <==> n < 0
  {
    if n < 0 then "-" + NatToDecimal(-n) else NatToDecimal(n)
  }

  /** `String(v)` (also what a template literal `${v}` produces). */
  function ToStr(v: Value): string {
    match v
    case Undefined => "undefined"
    case Null => "null"
    case Bool(b) => if b then "true" else "false"
    case Number(n) => IntToString(n)
    case Str(s) => s
    case Object => "[object Object]"
  }

  /** White space that `parseInt` skips (the ASCII members of the set). */
  predicate IsSpace(c: char) {
    c == ' ' || c == '\t' || c == '\n' || c == '\r' || c as int == 11 || c as int == 12
  }

  function TrimStart(s: string): (t: string)
    ensures |t| <= |s| && t == s[|s| - |t|..]
    ensures t == [] || !IsSpace(t[0])
    ensures forall i :: 0 <= i < |s| - |t| ==> IsSpace(s[i])
  {
    if |s| > 0 && IsSpace(s[0]) then TrimStart(s[1..]) else s
  }

  /** The longest prefix of `s` made of radix-`radix` digits. */
  function LeadingDigits(s: string, radix: nat): (d: string)
    ensures |d| <= |s| && d == s[..|d|]
    ensures forall i :: 0 <= i < |d| ==> IsDigit(d[i], radix)
    ensures |d| < |s| ==> !IsDigit(s[|d|], radix)
  {
    if |s| > 0 && IsDigit(s[0], radix) then [s[0]] + LeadingDigits(s[1..], radix) else []
  }

  /** The number a numeral denotes, most significant digit first. */
  function DigitsValue(d: string, radix: nat): nat
    requires forall i :: 0 <= i < |d| ==> IsDigit(d[i], radix)
  {
    if d == [] then 0
    else
      var init := d[..|d| - 1];
      assert forall i :: 0 <= i < |init| ==> init[i] == d[i];
      var high: nat := DigitsValue(init, radix);
      var low := DigitValue(d[|d| - 1]);
      assert 0 <= low by { assert IsDigit(d[|d| - 1], radix); }
      ScaleNonNegative(high, radix);
      high * radix + low
  }

  lemma ScaleNonNegative(a: nat, b: nat)
    ensures a * b >= 0
  {
  }

  /** A `parseInt` result: `NaN` or an integer. */
  datatype Parsed = NaN | Int(value: int)

  /** The unsigned part of `parseInt`: hexadecimal after a `0x`/`0X`
      prefix, decimal otherwise, up to the first non-digit; `NaN` when no
      digit was read. */
  function ParseMagnitude(u: string): (m: Parsed)
    ensures m.Int? ==> m.value >= 0 && |u| > 0 && IsDigit(u[0], 16)
  {
    var hex := |u| >= 2 && u[0] == '0' && (u[1] == 'x' || u[1] == 'X');
    var radix := if hex then 16 else 10;
    var digits := LeadingDigits(if hex then u[2..] else u, radix);
    if digits == [] then NaN else Int(DigitsValue(digits, radix))
  }

  function Negate(m: Parsed): Parsed {
    match m
    case NaN => NaN
    case Int(v) => Int(-v)
  }

  /** `parseInt(s)` with no radix: skip leading white space, take an optional
      sign, then read the magnitude. */
  function ParseInt(s: string): Parsed {
    var t := TrimStart(s);
    if |t| > 0 && t[0] == '-' then Negate(ParseMagnitude(t[1..]))
    else if |t| > 0 && t[0] == '+' then ParseMagnitude(t[1..])
    else ParseMagnitude(t)
  }

  /** `parseInt(v)`: the argument is first converted to a string. */
  function ParseValue(v: Value): Parsed {
    ParseInt(ToStr(v))
  }

  lemma {:induction false} DecimalValue(n: nat)
    ensures DigitsValue(NatToDecimal(n), 10) == n
    decreases n
  {
    if n >= 10 {
      var d := NatToDecimal(n);
      assert d[..|d| - 1] == NatToDecimal(n / 10);
      DecimalValue(n / 10);
    }
  }

  lemma {:induction false} LeadingDigitsOfNumeral(s: string, radix: nat)
    requires forall i :: 0 <= i < |s| ==> IsDigit(s[i], radix)
    ensures LeadingDigits(s, radix) == s
    decreases |s|
  {
    if s != [] {
      LeadingDigitsOfNumeral(s[1..], radix);
    }
  }

  /** A numeral of decimal digits only has its own value as magnitude. */
  lemma DecimalMagnitude(d: string)
    requires |d| > 0 && forall i :: 0 <= i < |d| ==> IsDecimalDigit(d[i])
    ensures forall i :: 0 <= i < |d| ==> IsDigit(d[i], 10)
    ensures ParseMagnitude(d) == Int(DigitsValue(d, 10))
  {
    assert forall i :: 0 <= i < |d| ==> IsDigit(d[i], 10);
    assert !(|d| >= 2 && d[0] == '0' && (d[1] == 'x' || d[1] == 'X')) by {
      if |d| >= 2 { assert IsDecimalDigit(d[1]); }
    }
    LeadingDigitsOfNumeral(d, 10);
  }

  lemma ParseDecimalNumeral(n: nat)
    ensures ParseInt(NatToDecimal(n)) == Int(n)
  {
    var d := NatToDecimal(n);
    assert IsDecimalDigit(d[0]);
    assert TrimStart(d) == d;
    assert ParseInt(d) == ParseMagnitude(d);
    DecimalMagnitude(d);
    DecimalValue(n);
  }

  /** `parseInt(String(n)) === n` for every integer `n`. */
  lemma ParseIntRoundTrip(n: int)
    ensures ParseInt(IntToString(n)) == Int(n)
  {
    if n < 0 {
      var d := NatToDecimal(-n);
      var s := IntToString(n);
      assert s == "-" + d && s[1..] == d;
      assert TrimStart(s) == s;
      DecimalMagnitude(d);
      DecimalValue(-n);
    } else {
      ParseDecimalNumeral(n);
    }
  }

  /** A string with no decimal digit anywhere parses to `NaN`. */
  lemma ParseIntWithoutDigits(s: string)
    requires forall i :: 0 <= i < |s| ==> !IsDecimalDigit(s[i])
    ensures ParseInt(s) == NaN
  {
    var t := TrimStart(s);
    var u := if |t| > 0 && (t[0] == '-' || t[0] == '+') then t[1..] else t;
    assert u == s[|s| - |u|..];
    if |u| > 0 {
      assert u[0] == s[|s| - |u|];
    }
    MagnitudeWithoutLeadingDigit(u);
  }

  /** No magnitude is read when the text does not start with a decimal digit. */
  lemma MagnitudeWithoutLeadingDigit(u: string)
    requires |u| == 0 || !IsDecimalDigit(u[0])
    ensures ParseMagnitude(u) == NaN
  {
    if |u| > 0 {
      assert u[0] != '0';
      assert !IsDigit(u[0], 10);
      assert LeadingDigits(u, 10) == [];
    }
  }

  /** `toLowerCase` on one character (ASCII letters only). */
  function LowerChar(c: char): char {
    if 'A' <= c <= 'Z' then (c as int + 32) as char else c
  }

  /** `s.toLowerCase()` restricted to ASCII letters. */
  function ToLower(s: string): (r: string)
    ensures |r| == |s|
    ensures forall i :: 0 <= i < |s| ==> r[i] == LowerChar(s[i])
    ensures forall i :: 0 <= i < |r| ==> !('A' <= r[i] <= 'Z')
  {
    if s == [] then [] else [LowerChar(s[0])] + ToLower(s[1..])
  }

  /** `t` is `s` lower-cased when it is so character by character. */
  lemma LowersTo(s: string, t: string)
    requires |s| == |t| && forall i :: 0 <= i < |s| ==> LowerChar(s[i]) == t[i]
    ensures ToLower(s) == t
  {
  }

  /** `needle` sits in `hay` at offset `i`. */
  predicate OccursAt(needle: string, hay: string, i: nat) {
    i + |needle| <= |hay| && hay[i..i + |needle|] == needle
  }

  ghost predicate Occurs(needle: string, hay: string) {
    exists i: nat :: OccursAt(needle, hay, i)
  }

  /** `hay.includes(needle)`, scanning from the left. */
  function Includes(hay: string, needle: string): bool
    decreases |hay|
  {
    if |needle| > |hay| then false
    else if hay[..|needle|] == needle then true
    else Includes(hay[1..], needle)
  }

  lemma {:induction false} IncludesIffOccurs(hay: string, needle: string)
    ensures Includes(hay, needle) <==> Occurs(needle, hay)
    decreases |hay|
  {
    if |needle| > |hay| {
      assert forall i: nat :: !OccursAt(needle, hay, i);
    } else if hay[..|needle|] == needle {
      assert OccursAt(needle, hay, 0);
    } else {
      IncludesIffOccurs(hay[1..], needle);
      if Occurs(needle, hay[1..]) {
        var j: nat :| OccursAt(needle, hay[1..], j);
        assert hay[1..][j..j + |needle|] == hay[j + 1..j + 1 + |needle|];
        assert OccursAt(needle, hay, j + 1);
      }
      if Occurs(needle, hay) {
        var i: nat :| OccursAt(needle, hay, i);
        assert i != 0;
        assert hay[1..][i - 1..i - 1 + |needle|] == hay[i..i + |needle|];
        assert OccursAt(needle, hay[1..], i - 1);
      }
    }
  }
}

=== FILE: log_fingerprint.dfy ===
/** The `log-fingerprint` serverless handler: the raw ingestion path that
    validates a fingerprint id exactly as `finger-login` does and writes one
    bare attendance row holding nothing but that id. No identity is
    resolved. */
module LogFingerprintHandler {
  import opened Common
  import opened Js
  import opened Tables
  import opened Http

  datatype ScanBody = ScanError(error: string) | ScanLogged(data: AttendanceRow)

  /** Whether the insert (with its `.select().single()` read-back) fails. */
  datatype ScanOracle = ScanOracle(insertFails: bool)

  /** The attendance row a raw scan writes: no student, no status, no
      timestamp supplied by the handler. */
  function RawScanRow(n: int): (row: AttendanceRow)
    ensures row.fingerprintId == Some(n)
    ensures row.studentId.None? && row.status.None? && row.timestamp.None?
  {
    AttendanceRow(None, Some(n), None, None)
  }

  function Handle(req: Request, db: Db, oracle: ScanOracle): (o: Outcome<ScanBody>)
    ensures req.verb == "OPTIONS" ==> o == Outcome(Preflight, db)
    ensures req.verb != "OPTIONS" && req.verb != "POST" ==>
              o == Outcome(Reply(405, ScanError(MethodNotAllowed)), db)
    ensures req.verb == "POST" && req.payload.Unparseable? ==>
              o == Outcome(Reply(500, ScanError(InternalError)), db)
    ensures req.verb == "POST" && req.payload.Parsed? && CheckFingerprintId(BodyField(req, "fingerprint_id")).Rejected? ==>
              o.response.Status() == 400 && o.db == db
    ensures req.verb == "POST" && req.payload.Parsed? && CheckFingerprintId(BodyField(req, "fingerprint_id")).Accepted?
              && oracle.insertFails ==>
              o == Outcome(Reply(500, ScanError(LogFailed)), db)
    ensures o.db == db || AddedOneAttendanceRow(db, o.db)
    ensures AddedOneAttendanceRow(db, o.db) <==>
              req.verb == "POST" && req.payload.Parsed? && CheckFingerprintId(BodyField(req, "fingerprint_id")).Accepted?
              && !oracle.insertFails
    ensures AddedOneAttendanceRow(db, o.db) ==>
              var row := Last(o.db.attendance);
              && row.fingerprintId.Some?
              && CheckFingerprintId(BodyField(req, "fingerprint_id")) == Accepted(row.fingerprintId.value)
              && row.studentId.None? && row.status.None? && row.timestamp.None?
              && o.response == Reply(200, ScanLogged(row))
    // the only success body is the 200 echo of the written row
    ensures o.response.Reply? && o.response.body.ScanLogged? <==> AddedOneAttendanceRow(db, o.db)
  {
    if req.verb == "OPTIONS" then Outcome(Preflight, db)
    else if req.verb != "POST" then Outcome(Reply(405, ScanError(MethodNotAllowed)), db)
    else match req.payload
      case Unparseable(_) => Outcome(Reply(500, ScanError(InternalError)), db)
      case Parsed(fields) =>
        match CheckFingerprintId(Field(fields, "fingerprint_id"))
        case Rejected(error) => Outcome(Reply(400, ScanError(error)), db)
        case Accepted(n) =>
          if oracle.insertFails then Outcome(Reply(500, ScanError(LogFailed)), db)
          else
            var row := RawScanRow(n);
            Outcome(Reply(200, ScanLogged(row)), db.(attendance := db.attendance + [row]))
  }

  /** The answer and the attendance table afterwards depend on neither the
      users nor the students table (nor the login log). */
  lemma ScanIgnoresIdentityTables(req: Request, db1: Db, db2: Db, oracle: ScanOracle)
    requires db1.attendance == db2.attendance
    ensures Handle(req, db1, oracle).response == Handle(req, db2, oracle).response
    ensures Handle(req, db1, oracle).db.attendance == Handle(req, db2, oracle).db.attendance
  {
  }
}

=== FILE: mark_attendance.dfy ===
/** The `mark-attendance` serverless handler: checks an admission number
    and a PRESENT/ABSENT status, resolves the student, writes one attendance
    row with the lower-cased status, and makes at most one best-effort
    WhatsApp notification whose outcome is only reported as a flag. */
module MarkAttendanceHandler {
  import opened Common
  import opened Js
  import opened Tables
  import opened Http

  /** What the outbound `fetch` to the messaging service does: throw, or
      answer with a response whose `ok` flag is given. */
  datatype Delivery = Threw | Answered(ok: bool)

  /** `sendWhatsAppMessage`: never throws; `true` exactly when the service
      answered with an ok response. */
  function SendWhatsAppMessage(number: string, message: string, delivery: Delivery): (sent: bool)
    ensures sent <==> delivery == Answered(true)
  {
    match delivery
    case Threw => false
    case Answered(ok) => ok
  }

  /** One attempted notification: the number and the message text. */
  datatype Notification = Notification(number: string, message: string)

  datatype MarkData = MarkData(
    studentName: string,
    adminNo: string,
    status: string,
    timestamp: string,
    whatsappSent: bool)

  datatype MarkBody =
    | MarkError(error: string)
    | MarkErrorDetail(error: string, details: string)
    | Marked(message: string, data: MarkData)

  /** What the handler learns from outside: whether the student lookup fails,
      the insert's error message if it fails, the current time, and what the
      messaging service does. */
  datatype MarkOracle = MarkOracle(lookupFails: bool, insertError: Option<string>, now: string, delivery: Delivery)

  /** The answer, the database after, and the notifications attempted. */
  datatype MarkOutcome = MarkOutcome(response: Response<MarkBody>, db: Db, notifications: seq<Notification>)

  /** The fixed messages of the replies. */
  const MissingFields := "Missing required fields: admin_no and status are required"
  const InvalidStatus := "Invalid status. Must be PRESENT or ABSENT"
  const InsertFailed := "Failed to mark attendance"
  const MarkedMessage := "Attendance marked successfully"

  /** The 404 message naming the admission number that matched no student. */
  function NotFound(key: string): string {
    "Student with admin_no " + key + " not found"
  }

  function NotificationText(name: string, status: string): string {
    "Your child " + name + " is " + status + " today."
  }

  /** `['PRESENT', 'ABSENT'].includes(status)`: strict equality, so only these
      two exact strings pass. */
  predicate AcceptedStatus(v: Value) {
    v == Str("PRESENT") || v == Str("ABSENT")
  }

  /** The students whose admission number matches the request's `admin_no`
      as the query string renders it. */
  function Candidates(req: Request, db: Db): seq<Student> {
    StudentsWithAdminNo(db.students, ToStr(BodyField(req, "admin_no")))
  }

  /** The two accepted statuses and what `toLowerCase` makes of them. */
  lemma LowerCasedStatuses()
    ensures ToLower("PRESENT") == "present"
    ensures ToLower("ABSENT") == "absent"
  {
    assert LowerChar('P') == 'p' && LowerChar('R') == 'r' && LowerChar('E') == 'e' && LowerChar('S') == 's';
    assert LowerChar('N') == 'n' && LowerChar('T') == 't' && LowerChar('A') == 'a' && LowerChar('B') == 'b';
    LowersTo("PRESENT", "present");
    LowersTo("ABSENT", "absent");
  }

  /** `status.toLowerCase()` for the two accepted statuses. */
  function LoweredStatus(status: string): (r: string)
    requires status == "PRESENT" || status == "ABSENT"
    ensures r == (if status == "PRESENT" then "present" else "absent")
  {
    LowerCasedStatuses();
    ToLower(status)
  }

  /** The effect of a successful mark of `student`: exactly one row with the
      student's id, the lower-cased status and the time; one notification to
      the parent phone when there is one; and the 200 body reporting whether
      that notification was answered ok. */
  predicate Recorded(db: Db, o: MarkOutcome, student: Student, status: string, oracle: MarkOracle) {
    var sent := o.notifications != [] && oracle.delivery == Answered(true);
    && AddedOneAttendanceRow(db, o.db)
    && Last(o.db.attendance) == AttendanceRow(Some(student.id), None,
         Some(if status == "PRESENT" then "present" else "absent"), Some(oracle.now))
    && (o.notifications != [] <==> student.parentPhone != "")
    && (o.notifications != [] ==>
          o.notifications == [Notification(student.parentPhone, NotificationText(student.name, status))])
    && o.response == Reply(200, Marked(MarkedMessage,
         MarkData(student.name, student.adminNo, status, oracle.now, sent)))
  }

  /** The part after a student was found: insert the row, then notify the
      parent when a phone number is on file. */
  function Record(student: Student, status: string, db: Db, oracle: MarkOracle): (o: MarkOutcome)
    requires status == "PRESENT" || status == "ABSENT"
    ensures oracle.insertError.Some? ==>
              o == MarkOutcome(Reply(500, MarkErrorDetail(InsertFailed, oracle.insertError.value)), db, [])
    ensures oracle.insertError.None? ==> Recorded(db, o, student, status, oracle)
  {
    match oracle.insertError
    case Some(message) =>
      MarkOutcome(Reply(500, MarkErrorDetail(InsertFailed, message)), db, [])
    case None =>
      var row := AttendanceRow(Some(student.id), None, Some(LoweredStatus(status)), Some(oracle.now));
      var notifications :=
        if student.parentPhone != "" then [Notification(student.parentPhone, NotificationText(student.name, status))]
        else [];
      var sent :=
        if student.parentPhone != "" then SendWhatsAppMessage(student.parentPhone, NotificationText(student.name, status), oracle.delivery)
        else false;
      MarkOutcome(
        Reply(200, Marked(MarkedMessage, MarkData(student.name, student.adminNo, status, oracle.now, sent))),
        db.(attendance := db.attendance + [row]),
        notifications)
  }

  /** The handler once the body was read: validation, lookup, and the write. */
  function HandleFields(fields: map<string, Value>, db: Db, oracle: MarkOracle): (o: MarkOutcome)
    ensures o.response.Reply?
    ensures !Truthy(Field(fields, "admin_no")) || !Truthy(Field(fields, "status")) ==>
              o == MarkOutcome(Reply(400, MarkError(MissingFields)), db, [])
    ensures Truthy(Field(fields, "admin_no")) && Truthy(Field(fields, "status")) && !AcceptedStatus(Field(fields, "status")) ==>
              o == MarkOutcome(Reply(400, MarkError(InvalidStatus)), db, [])
    ensures Truthy(Field(fields, "admin_no")) && AcceptedStatus(Field(fields, "status")) ==>
              var key := ToStr(Field(fields, "admin_no"));
              var found := SingleRow(StudentsWithAdminNo(db.students, key), oracle.lookupFails);
              && (found.None? ==> o == MarkOutcome(Reply(404, MarkError(NotFound(key))), db, []))
              && (found.Some? ==> o == Record(found.value, Field(fields, "status").s, db, oracle))
  {
    var adminNo := Field(fields, "admin_no");
    var status := Field(fields, "status");
    if !Truthy(adminNo) || !Truthy(status) then
      MarkOutcome(Reply(400, MarkError(MissingFields)), db, [])
    else if !AcceptedStatus(status) then
      MarkOutcome(Reply(400, MarkError(InvalidStatus)), db, [])
    else
      var key := ToStr(adminNo);
      match SingleRow(StudentsWithAdminNo(db.students, key), oracle.lookupFails)
      case None =>
        MarkOutcome(Reply(404, MarkError(NotFound(key))), db, [])
      case Some(student) => Record(student, status.s, db, oracle)
  }

  /** The request named exactly one student, by a string status, and the
      outcome is that student's successful mark. */
  predicate RecordedFromRequest(req: Request, db: Db, o: MarkOutcome, oracle: MarkOracle) {
    && BodyField(req, "status").Str?
    && |Candidates(req, db)| == 1
    && Candidates(req, db)[0] in db.students
    && Recorded(db, o, Candidates(req, db)[0], BodyField(req, "status").s, oracle)
  }

  /** The conditions under which a request marks attendance: a body that was
      read, both fields present, an accepted status, exactly one student with
      that admission number, and an insert that succeeds. */
  predicate MarkSucceeds(req: Request, db: Db, oracle: MarkOracle) {
    && req.verb != "OPTIONS" && req.payload.Parsed?
    && Truthy(BodyField(req, "admin_no")) && AcceptedStatus(BodyField(req, "status"))
    && !oracle.lookupFails && |Candidates(req, db)| == 1 && oracle.insertError.None?
  }

  function Handle(req: Request, db: Db, oracle: MarkOracle): (o: MarkOutcome)
    ensures req.verb == "OPTIONS" ==> o == MarkOutcome(Preflight, db, [])
    // there is no method check: every other method goes through validation
    ensures req.verb != "OPTIONS" ==> o.response.Reply?
    ensures req.verb != "OPTIONS" && req.payload.Unparseable? ==>
              o == MarkOutcome(Reply(500, MarkErrorDetail(InternalError, req.payload.message)), db, [])
    ensures req.verb != "OPTIONS" && req.payload.Parsed?
              && (!Truthy(BodyField(req, "admin_no")) || !Truthy(BodyField(req, "status"))) ==>
              o == MarkOutcome(Reply(400, MarkError(MissingFields)), db, [])
    ensures req.verb != "OPTIONS" && req.payload.Parsed?
              && Truthy(BodyField(req, "admin_no")) && !AcceptedStatus(BodyField(req, "status")) ==>
              o.response.Status() == 400 && o.db == db && o.notifications == []
    ensures o.response.Status() == 404 ==>
              && o.db == db && o.notifications == []
              && (oracle.lookupFails || |Candidates(req, db)| != 1)
              && o.response.body == MarkError(NotFound(ToStr(BodyField(req, "admin_no"))))
    ensures o.response.Status() == 500 ==> o.db == db && o.notifications == [] && o.response.body.MarkErrorDetail?
    ensures o.db == db || AddedOneAttendanceRow(db, o.db)
    ensures AddedOneAttendanceRow(db, o.db) <==> o.response.Reply? && o.response.code == 200
    ensures AddedOneAttendanceRow(db, o.db) <==> MarkSucceeds(req, db, oracle)
    // at most one notification, and only once the row is written
    ensures |o.notifications| <= 1
    ensures o.notifications != [] ==> AddedOneAttendanceRow(db, o.db)
    ensures AddedOneAttendanceRow(db, o.db) ==> RecordedFromRequest(req, db, o, oracle)
  {
    if req.verb == "OPTIONS" then MarkOutcome(Preflight, db, [])
    else match req.payload
      case Unparseable(message) => MarkOutcome(Reply(500, MarkErrorDetail(InternalError, message)), db, [])
      case Parsed(fields) => HandleFields(fields, db, oracle)
  }
}

=== FILE: students_page.dfy ===
/** The student-management page: the search/class/section filter over the
    fetched student list, and the edit form's population, reset and save. */
module StudentsPage {
  import opened Common
  import opened Js
  import opened Tables

  /** Case-insensitive search hit on name or roll number. */
  predicate SearchHit(s: Student, query: string) {
    Includes(ToLower(s.name), ToLower(query)) || Includes(ToLower(s.rollNumber), ToLower(query))
  }

  /** A filter stage that is skipped when its control is inactive. */
  function Stage(xs: seq<Student>, active: bool, p: Student -> bool): (r: seq<Student>)
    ensures !active ==> r == xs
  {
    if active then Filter(xs, p) else xs
  }

  /** `filterStudents`: the search stage (only for a non-empty query), then
      the class stage and the section stage (only when not 'all'). */
  function FilterStudents(students: seq<Student>, query: string, classFilter: string, sectionFilter: string): (r: seq<Student>)
    ensures IsSubsequence(r, students)
    ensures query != "" ==> forall s :: s in r ==> SearchHit(s, query)
    ensures classFilter != "all" ==> forall s :: s in r ==> s.className == classFilter
    ensures sectionFilter != "all" ==> forall s :: s in r ==> s.section == sectionFilter
    ensures forall s :: s in students && Admitted(s, query, classFilter, sectionFilter) ==> s in r
    ensures query == "" && classFilter == "all" && sectionFilter == "all" ==> r == students
  {
    var bySearch := Stage(students, query != "", (s: Student) => SearchHit(s, query));
    var byClass := Stage(bySearch, classFilter != "all", (s: Student) => s.className == classFilter);
    var bySection := Stage(byClass, sectionFilter != "all", (s: Student) => s.section == sectionFilter);
    SubsequenceReflexive(students);
    SubsequenceReflexive(bySearch);
    SubsequenceReflexive(byClass);
    SubsequenceTransitive(byClass, bySearch, students);
    SubsequenceTransitive(bySection, byClass, students);
    bySection
  }

  /** The conjunction of the active predicates, as one test on one student. */
  predicate Admitted(s: Student, query: string, classFilter: string, sectionFilter: string) {
    && (query == "" || SearchHit(s, query))
    && (classFilter == "all" || s.className == classFilter)
    && (sectionFilter == "all" || s.section == sectionFilter)
  }

  /** Reference definition: one left-to-right pass keeping admitted students. */
  function MatchingStudents(xs: seq<Student>, query: string, classFilter: string, sectionFilter: string): seq<Student> {
    if xs == [] then []
    else (if Admitted(xs[0], query, classFilter, sectionFilter) then [xs[0]] else [])
         + MatchingStudents(xs[1..], query, classFilter, sectionFilter)
  }

  lemma StageCons(xs: seq<Student>, active: bool, p: Student -> bool)
    requires xs != []
    ensures Stage(xs, active, p) == (if !active || p(xs[0]) then [xs[0]] else []) + Stage(xs[1..], active, p)
  {
    if !active {
      assert xs == [xs[0]] + xs[1..];
    }
  }

  lemma StageAppend(a: seq<Student>, b: seq<Student>, active: bool, p: Student -> bool)
    ensures Stage(a + b, active, p) == Stage(a, active, p) + Stage(b, active, p)
  {
    if active {
      FilterAppend(a, b, p);
    }
  }

  /** The three staged filters keep exactly the students the reference pass
      keeps, in the same order. */
  lemma {:induction false} FilterStudentsIsMatching(xs: seq<Student>, query: string, classFilter: string, sectionFilter: string)
    ensures FilterStudents(xs, query, classFilter, sectionFilter) == MatchingStudents(xs, query, classFilter, sectionFilter)
    decreases |xs|
  {
    var p1 := (s: Student) => SearchHit(s, query);
    var p2 := (s: Student) => s.className == classFilter;
    var p3 := (s: Student) => s.section == sectionFilter;
    var a1, a2, a3 := query != "", classFilter != "all", sectionFilter != "all";
    if xs != [] {
      FilterStudentsIsMatching(xs[1..], query, classFilter, sectionFilter);
      StageCons(xs, a1, p1);
      var h1 := if !a1 || p1(xs[0]) then [xs[0]] else [];
      StageAppend(h1, Stage(xs[1..], a1, p1), a2, p2);
      var h2 := Stage(h1, a2, p2);
      StageAppend(h2, Stage(Stage(xs[1..], a1, p1), a2, p2), a3, p3);
      if h1 != [] {
        StageCons(h1, a2, p2);
        assert h1[1..] == [];
        if h2 != [] {
          StageCons(h2, a3, p3);
          assert h2[1..] == [];
        }
      }
    }
  }

  lemma {:induction false} MatchingIdempotent(xs: seq<Student>, query: string, classFilter: string, sectionFilter: string)
    ensures MatchingStudents(MatchingStudents(xs, query, classFilter, sectionFilter), query, classFilter, sectionFilter)
            == MatchingStudents(xs, query, classFilter, sectionFilter)
    decreases |xs|
  {
    if xs != [] {
      var head := if Admitted(xs[0], query, classFilter, sectionFilter) then [xs[0]] else [];
      var tail := MatchingStudents(xs[1..], query, classFilter, sectionFilter);
      MatchingIdempotent(xs[1..], query, classFilter, sectionFilter);
      if head != [] {
        assert (head + tail)[1..] == tail;
      } else {
        assert head + tail == tail;
      }
    }
  }

  /** Re-filtering a filtered list with the same controls changes nothing. */
  lemma FilterStudentsIdempotent(xs: seq<Student>, query: string, classFilter: string, sectionFilter: string)
    ensures FilterStudents(FilterStudents(xs, query, classFilter, sectionFilter), query, classFilter, sectionFilter)
            == FilterStudents(xs, query, classFilter, sectionFilter)
  {
    FilterStudentsIsMatching(xs, query, classFilter, sectionFilter);
    FilterStudentsIsMatching(FilterStudents(xs, query, classFilter, sectionFilter), query, classFilter, sectionFilter);
    MatchingIdempotent(xs, query, classFilter, sectionFilter);
  }

  /** The edit dialog's form; every field is a string. */
  datatype StudentForm = StudentForm(
    name: string,
    rollNumber: string,
    className: string,
    section: string,
    parentPhone: string,
    fingerId: string)

  const EmptyForm: StudentForm := StudentForm("", "", "", "", "", "")

  /** The page state the form handlers touch. */
  datatype StudentEditor = StudentEditor(form: StudentForm, editing: Option<Student>, dialogOpen: bool)

  const InitialEditor: StudentEditor := StudentEditor(EmptyForm, None, false)

  /** `handleEdit`: remember the student, copy its fields into the form
      (`finger_id || ''`), open the dialog. */
  function EditStudent(ed: StudentEditor, student: Student): (r: StudentEditor)
    ensures r.editing == Some(student) && r.dialogOpen
    ensures r.form.name == student.name && r.form.rollNumber == student.rollNumber
    ensures r.form.className == student.className && r.form.section == student.section
    ensures r.form.parentPhone == student.parentPhone
    ensures r.form.fingerId == student.fingerId.GetOr("")
    ensures r.form.fingerId == "" <==> student.fingerId.None? || student.fingerId == Some("")
  {
    StudentEditor(
      StudentForm(student.name, student.rollNumber, student.className, student.section, student.parentPhone,
        if student.fingerId.Some? && student.fingerId.value != "" then student.fingerId.value else ""),
      Some(student),
      true)
  }

  /** `handleSubmit` on an existing student: `update(formData)` writes every
      form field, `finger_id` included, as the string it holds. */
  function SaveForm(s: Student, form: StudentForm): (r: Student)
    ensures r.id == s.id && r.adminNo == s.adminNo
    ensures r.name == form.name && r.rollNumber == form.rollNumber
    ensures r.className == form.className && r.section == form.section
    ensures r.parentPhone == form.parentPhone
    ensures r.fingerId == Some(form.fingerId)
  {
    s.(name := form.name, rollNumber := form.rollNumber, className := form.className,
       section := form.section, parentPhone := form.parentPhone, fingerId := Some(form.fingerId))
  }

  /** Opening a student and saving the untouched form writes the student
      back unchanged exactly when its `finger_id` was not null; a null one
      comes back as the empty string. */
  lemma EditThenSave(ed: StudentEditor, s: Student)
    ensures SaveForm(s, EditStudent(ed, s).form) == s.(fingerId := Some(s.fingerId.GetOr("")))
    ensures SaveForm(s, EditStudent(ed, s).form) == s <==> s.fingerId.Some?
  {
  }

  /** `resetForm`: all six fields emptied, no student being edited; the
      dialog flag is not touched. */
  function ResetForm(ed: StudentEditor): (r: StudentEditor)
    ensures r.form.name == "" && r.form.rollNumber == "" && r.form.className == ""
    ensures r.form.section == "" && r.form.parentPhone == "" && r.form.fingerId == ""
    ensures r.editing.None? && r.dialogOpen == ed.dialogOpen
  {
    ed.(form := EmptyForm, editing := None)
  }

  /** Resetting a closed dialog returns to the page's initial state, whatever
      was being edited. */
  lemma ResetRestoresInitial(ed: StudentEditor, s: Student)
    requires !ed.dialogOpen
    ensures ResetForm(ed) == InitialEditor
    ensures ResetForm(EditStudent(ed, s).(dialogOpen := false)) == InitialEditor
  {
  }
}

=== FILE: tables.dfy ===
/** The rows of the four tables the handlers and pages touch, the store as a
    record of append-only sequences, and the one-row query semantics of
    `.single()` / `.maybeSingle()` with errors folded into "no row". */
module Tables {
  import opened Common
  import opened Js

  /** A row of `users` (the shape the user-management page reads). */
  datatype User = User(
    id: string,
    name: string,
    email: Option<string>,
    role: string,
    admnNo: Option<string>,
    className: Option<string>,
    section: Option<string>,
    fingerprintId: Option<int>,
    createdAt: string)

  /** A row of `students`; a missing parent phone is the empty string. */
  datatype Student = Student(
    id: string,
    name: string,
    rollNumber: string,
    adminNo: string,
    className: string,
    section: string,
    parentPhone: string,
    fingerId: Option<string>)

  /** The columns of an `attendance` row that a writer supplies; columns the
      database fills in itself (row id, creation time) are not modelled. */
  datatype AttendanceRow = AttendanceRow(
    studentId: Option<string>,
    fingerprintId: Option<int>,
    status: Option<string>,
    timestamp: Option<string>)

  /** A row of `finger_login_logs`. */
  datatype LoginLogRow = LoginLogRow(
    fingerprintId: int,
    userId: Option<string>,
    deviceId: Option<Value>,
    loginTime: string)

  /** The database as the serverless handlers see it. */
  datatype Db = Db(
    users: seq<User>,
    students: seq<Student>,
    attendance: seq<AttendanceRow>,
    loginLogs: seq<LoginLogRow>)

  /** `.single()` and `.maybeSingle()` once their error is read as "no row":
      a row comes back only when the query did not fail and matched exactly
      one row (several matches are an error for both). */
  function SingleRow<T>(matches: seq<T>, failed: bool): (r: Option<T>)
    ensures r.Some? <==> !failed && |matches| == 1
    ensures r.Some? ==> r.value == matches[0]
  {
    if !failed && |matches| == 1 then Some(matches[0]) else None
  }

  /** `from('users').eq('fingerprint_id', n)`: the matching users, in table
      order. */
  function UsersWithFingerprint(users: seq<User>, n: int): (r: seq<User>)
    ensures |r| <= |users|
    ensures forall u :: u in r <==> u in users && u.fingerprintId == Some(n)
  {
    if users == [] then []
    else if users[0].fingerprintId == Some(n) then [users[0]] + UsersWithFingerprint(users[1..], n)
    else UsersWithFingerprint(users[1..], n)
  }

  /** `from('students').eq('admin_no', key)`: the matching students, in
      table order. */
  function StudentsWithAdminNo(students: seq<Student>, key: string): (r: seq<Student>)
    ensures |r| <= |students|
    ensures forall s :: s in r <==> s in students && s.adminNo == key
  {
    if students == [] then []
    else if students[0].adminNo == key then [students[0]] + StudentsWithAdminNo(students[1..], key)
    else StudentsWithAdminNo(students[1..], key)
  }
}
